=== FILE: README.md ===
# Hybrid vessel 48-hour energy balance, modelled in Dafny

This project models the simulation core of a tool that estimates fuel use for a
hybrid vessel over 48 hours. The vessel has two main propulsion motors, two
diesel generators, a solar array and a battery. Every hour the tool does the
following, in order:

1. Solar output serves the hotel load first, then the auxiliary load, then
   propulsion.
2. The propulsion load is split evenly between two shafts. Each motor feeds
   its own shaft directly, and then cross-feeds the other shaft.
3. Whatever the shafts still need becomes a demand on the electrical grid.
4. Capacity the motors have left, and the generators' output, feed the grid.
5. The grid serves what hotel and auxiliary still need, and then the
   propulsion demand.
6. The battery covers what the grid cannot.
7. The battery absorbs the surplus grid power plus any leftover solar.
8. The fuel of the four devices is costed and a record of the hour is kept.

Loads and device usage are given per four-hour block. Solar irradiance follows
a daily half-sine schedule that repeats on the second day.

The project has four modules:

- `Devices` (`devices.dfy`): the device formulas as datatypes. The battery is a
  class whose state of charge its `Charge` and `Discharge` methods update in
  place. Each method is specified by a pure step function (`ChargeStep`,
  `DischargeStep`).
- `Irradiance` (`irradiance.dfy`): the irradiance schedule. An array is filled
  hour by hour in a loop and specified by `IrradianceAt`.
- `Balance` (`balance.dfy`): the battery-independent part of one hour, as pure
  functions: `AllocateSolar`, `RoutePropulsion`, the grid producers,
  `AllocateGrid` and fuel. `PlanHour` assembles them into a `Plan`.
- `Simulation` (`simulation.dfy`): the 48-hour driver. `RunSimIntegration`
  runs the hours in a loop on one `Battery` and appends one `HourRecord` per
  hour. It is proved equal to the recursive specification `Records`/`SocAfter`.
  The lemmas state the properties of the whole run.

Quantities are `real`. Python's `min`/`max` are `Min`/`Max`, which keep the
same argument on ties. `AllocateSolar` and `AllocateGrid` write their minimums out as
conditionals with the same tie rule. Wherever Python would divide by zero, the model has a
precondition that the divisor is non-zero.

## Model

| member | source | states |
|---|---|---|
| Devices.DieselGenerator.FuelConsumed | Engine_usage_Tool_48h_with_efficiencies_amendable.py:17-23 | no fuel when the rate is ≤ 0; otherwise litres × rate × grid efficiency equals the grid output (fuel is costed on output after the loss); non-negative for non-negative output and positive efficiency |
| Devices.MainPropulsionMotor.FuelConsumed | Engine_usage_Tool_48h_with_efficiencies_amendable.py:33-42 | no fuel when the rate is ≤ 0; otherwise litres × rate = mechanical/direct efficiency + electrical/grid efficiency; non-negative for non-negative inputs and positive efficiencies |
| Devices.NewMainPropulsionMotor | Engine_usage_Tool_48h_with_efficiencies_amendable.py:26-31 | fields are taken from the arguments; without a grid cap, the cap equals the motor's rating |
| Devices.SolarPower.GeneratePower | Engine_usage_Tool_48h_with_efficiencies_amendable.py:49-50 | zero irradiance gives zero output; output is non-negative and at most area × efficiency for irradiance in [0, 1] |
| Devices.ChargeStep | Engine_usage_Tool_48h_with_efficiencies_amendable.py:60-67 | surplus ≤ 0 stores nothing and keeps the charge; otherwise the amount stored is the smaller of surplus × charge efficiency and the free capacity; charge grows by exactly that amount; never exceeds capacity, and is full when the surplus covers the free capacity; stores no more than the surplus when efficiency ≤ 1 |
| Devices.DischargeStep | Engine_usage_Tool_48h_with_efficiencies_amendable.py:69-78 | need ≤ 0 delivers nothing; otherwise delivers the smaller of the need and max(0, soc − min) × discharge efficiency; the full need when that covers it; charge falls by delivered / efficiency; charge stays in [min, old soc] when it started above the minimum |
| Devices.Battery.constructor | Engine_usage_Tool_48h_with_efficiencies_amendable.py:53-58 | configuration from the arguments; without an initial charge the battery starts at half capacity |
| Devices.Battery.Charge | Engine_usage_Tool_48h_with_efficiencies_amendable.py:60-67 | returns the stored amount given by `ChargeStep`; `soc` grows by it; in range stays in range and never falls |
| Devices.Battery.Discharge | Engine_usage_Tool_48h_with_efficiencies_amendable.py:69-78 | returns the delivered amount and leaves the new charge given by `DischargeStep`; in range stays in range and never rises |
| Irradiance.IrradianceAt | Engine_usage_Tool_48h_with_efficiencies_amendable.py:87-93 | zero when sunset ≤ sunrise, zero when the hour of day lies outside [sunrise, sunset), zero for a zero peak |
| Irradiance.CreateIrrSchedule | Engine_usage_Tool_48h_with_efficiencies_amendable.py:84-94 | 48 entries, each equal to `IrradianceAt` of its hour; all zero when sunset ≤ sunrise; zero when the hour of day lies outside [sunrise, sunset); hour h equals hour h + 24 |
| Irradiance.IrradiancePeriodic | Engine_usage_Tool_48h_with_efficiencies_amendable.py:90 | hour h + 24 has the same irradiance as hour h |
| Irradiance.DaylightFraction | Engine_usage_Tool_48h_with_efficiencies_amendable.py:91-92 | a daylight hour lies at a fraction in [0, 1) of the window |
| Irradiance.IrradianceBounded | Engine_usage_Tool_48h_with_efficiencies_amendable.py:89-93 | if the sine stays in [0, 1] on [0, 1) and the peak is ≥ 0, each hour's value lies in [0, peak] |
| Balance.BlockOf | Engine_usage_Tool_48h_with_efficiencies_amendable.py:119 | the block of an hour is the one of the 12 four-hour blocks that contains it |
| Balance.AllocateSolar | Engine_usage_Tool_48h_with_efficiencies_amendable.py:130-141 | what the loads use plus the solar left equals the solar output; each leftover load is the load minus its use, and is max(0, hotel − solar) for hotel and max(0, aux − max(0, solar − hotel)) for aux; prop leftover ≥ 0; aux gets solar only after hotel is covered, and prop only after aux is covered; leftover solar means no prop (and no hotel/aux) load is left; all non-negative for non-negative inputs; with no solar output and non-negative loads nothing is used, no solar is left and every load is left in full |
| Balance.FeedShaft | Engine_usage_Tool_48h_with_efficiencies_amendable.py:166-176 | delivers the smaller of need and capacity × efficiency; capacity is debited by delivered / efficiency and stays ≥ 0; capacity left means the need was met; no capacity delivers nothing |
| Balance.FeedShafts | Engine_usage_Tool_48h_with_efficiencies_amendable.py:165-176 | each shaft gets no more than it needs; each motor's capacity ledger (direct then cross-feed debits) is exact and stays ≥ 0; a motor cross-feeds only once its own shaft is fully served; a motor with capacity left has served its own shaft in full and the other shaft's whole remaining need, so each feed delivers the need or all the motor can; an idle motor feeds nothing |
| Balance.RoutePropulsion | Engine_usage_Tool_48h_with_efficiencies_amendable.py:158-183 | the need is split evenly (from the propulsion load before solar); the feeds are those of `FeedShafts` on the two halves; supplied = direct + cross-feed ≤ need per shaft; grid demand is the remaining need through the grid-to-shaft loss; a motor with no capacity contributes nothing |
| Balance.GridPropDemand | Engine_usage_Tool_48h_with_efficiencies_amendable.py:181-183 | demand × grid-to-shaft efficiency = max(0, remaining need); zero when nothing remains; non-negative for a positive efficiency |
| Balance.MotorGridOut | Engine_usage_Tool_48h_with_efficiencies_amendable.py:188-193 | grid output lies in [0, max(0, grid cap)]; equals capacity × efficiency when that is within the cap, and the cap when capacity × efficiency reaches a non-negative cap; zero when capacity × efficiency is ≤ 0 |
| Balance.GeneratorGridOut | Engine_usage_Tool_48h_with_efficiencies_amendable.py:195-201 | non-negative; zero when off; usage × rating when on and that is ≥ 0 |
| Balance.MotorAvailable | Engine_usage_Tool_48h_with_efficiencies_amendable.py:162-163 | zero when off; non-negative for non-negative usage and rating |
| Balance.AllocateGrid | Engine_usage_Tool_48h_with_efficiencies_amendable.py:208-214 | hotel/aux use + grid left = total grid; hotel/aux never use more than the total grid, so the grid left is ≥ 0 and a non-negative propulsion demand gets a non-negative share; uses are bounded by needs and together by the total grid; unmet = shortfall of both and ≥ 0; propulsion is served only after hotel/aux is covered; an uncovered hotel/aux takes the whole grid; unmet demand means no grid is left; with a non-negative propulsion demand, unmet demand leaves exactly the propulsion share as grid left; non-negative needs that the total grid covers are served in full and nothing is unmet |
| Balance.MotorFuel | Engine_usage_Tool_48h_with_efficiencies_amendable.py:228-240 | an off motor or a non-positive rate burns nothing; non-negative for non-negative outputs and positive efficiencies |
| Balance.GeneratorFuel | Engine_usage_Tool_48h_with_efficiencies_amendable.py:241-250 | an off generator or a non-positive rate burns nothing; non-negative for non-negative output and positive efficiency |
| Balance.PlanMotors | Engine_usage_Tool_48h_with_efficiencies_amendable.py:158-193 | shaft needs sum to the block's propulsion load; grid outputs ≥ 0; an off motor burns nothing and, with a non-negative load, feeds no shaft and no grid; fuel ≥ 0 for physical inputs; with zero load and both motors off there is no grid demand from the shafts |
| Balance.PlanHour | Engine_usage_Tool_48h_with_efficiencies_amendable.py:118-252 | solar output from the hour's irradiance; surplus = (grid left − grid to prop) + solar left; hotel/aux need = both leftovers; grid use + grid left = sum of the four outputs; shaft needs sum to prop load of block hour/4; off devices burn nothing (an off generator has no grid output, an off motor no feeds); fuel ≥ 0 for physical inputs; unmet demand leaves only solar as surplus; the unmet grid demand is ≥ 0; an idle hour (everything off, no load, no sunlight) has nothing unmet and no surplus |
| Simulation.PlanHourFacts | Engine_usage_Tool_48h_with_efficiencies_amendable.py:118-252 | the balance of any hour has the per-hour facts listed for `Plans` |
| Simulation.AllPlanHourFacts | Engine_usage_Tool_48h_with_efficiencies_amendable.py:115-252 | the balance of every hour of the 48 has the per-hour facts listed for `Plans` |
| Simulation.Plans | Engine_usage_Tool_48h_with_efficiencies_amendable.py:115-252 | one plan per hour of the 48; plan h uses hour h's irradiance for its solar output and splits the propulsion load of block h / 4 between the shafts; its unmet grid demand is ≥ 0; an off device burns nothing and an off generator has no grid output; with physical inputs no device burns a negative amount; an idle hour leaves the battery nothing to cover and nothing to absorb |
| Simulation.MakeRecord | Engine_usage_Tool_48h_with_efficiencies_amendable.py:254-276 | fuel used is the sum of the four device entries; each device entry carries that device's fuel and grid output; the leftover loads and the shaft supplies are those of the hour's balance |
| Simulation.HourAt | Engine_usage_Tool_48h_with_efficiencies_amendable.py:216-276 | record carries the hour, its start charge and each device's fuel and grid output; fuel used = sum of device fuels; end charge = start + charged − delivered / efficiency; unmet load = unmet grid − battery output, ≥ 0; battery discharges only when grid demand is unmet and charges only on surplus; excess = max(0, surplus − charged), and charged + excess = max(0, surplus) when charge efficiency ≤ 1; no unmet load when the battery can cover it; charge stays in [min, capacity]; the battery delivers no more than the unmet demand and no more than max(0, soc − min) × discharge efficiency; with nothing unmet and no surplus the battery does nothing and the charge is unchanged |
| Simulation.HourDischarge | Engine_usage_Tool_48h_with_efficiencies_amendable.py:216-219 | when the grid leaves demand unmet, the battery delivers what `DischargeStep` gives for that demand from the hour's start charge; a demand at least as large as the charge above the minimum (after the discharge loss) takes all of it |
| Simulation.HourCharge | Engine_usage_Tool_48h_with_efficiencies_amendable.py:221-223 | on a surplus, the battery stores what `ChargeStep` gives for it from the charge left after discharging; all of surplus × charge efficiency when that fits in the free capacity, and up to full capacity when it does not |
| Simulation.SocAfter | Engine_usage_Tool_48h_with_efficiencies_amendable.py:216-223 | starting in [min, capacity] (positive discharge efficiency, non-negative charge efficiency), the charge after any number of hours stays in [min, capacity]; hours with nothing unmet and no surplus leave the charge where it started |
| Simulation.Records | Engine_usage_Tool_48h_with_efficiencies_amendable.py:115-118 | a run of n hours has n records |
| Simulation.RunHour | Engine_usage_Tool_48h_with_efficiencies_amendable.py:216-276 | one hour on the battery produces exactly `HourAt`'s record and leaves the battery at its end charge |
| Simulation.RunPlans | Engine_usage_Tool_48h_with_efficiencies_amendable.py:118-278 | the loop's records and the battery's final charge equal `Records` and `SocAfter` of the plans |
| Simulation.RunSimIntegration | Engine_usage_Tool_48h_with_efficiencies_amendable.py:96-278 | returns 48 records equal to `Records` of the scenario's plans from the initial charge; the battery ends at `SocAfter` of the run |
| Simulation.RecordAt | Engine_usage_Tool_48h_with_efficiencies_amendable.py:118-276 | record i is hour i's balance from the charge the first i hours left |
| Simulation.RunShape | Engine_usage_Tool_48h_with_efficiencies_amendable.py:118-269 | exactly 48 records; record i has hour i and hour i's solar output; the first starts at the initial charge; each starts where the previous ended; the last ends at the run's final charge |
| Simulation.FuelAccounting | Engine_usage_Tool_48h_with_efficiencies_amendable.py:228-252 | every record's fuel is the sum of its four devices' fuel; an off device contributes no fuel, and an off generator no grid output |
| Simulation.RecordsInRange | Engine_usage_Tool_48h_with_efficiencies_amendable.py:268-269 | every record's start and end charge lie in [min, capacity] for a run started in range |
| Simulation.TotalFuel | Engine_usage_Tool_48h_with_efficiencies_amendable.py:684 | the total of hours that each burn ≥ 0 is ≥ 0; the total of hours that burn nothing is 0 |
| Simulation.FuelNonNegative | Engine_usage_Tool_48h_with_efficiencies_amendable.py:228-252 | if no device burns a negative amount, each record's fuel and the total fuel are ≥ 0 |
| Simulation.RunFuelNonNegative | Engine_usage_Tool_48h_with_efficiencies_amendable.py:228-252 | a run on physical inputs burns a non-negative amount every hour and in total |
| Simulation.UnmetLoadNonNegative | Engine_usage_Tool_48h_with_efficiencies_amendable.py:214-219 | every hour of a run leaves a non-negative unmet load |
| Simulation.QuietRun | Engine_usage_Tool_48h_with_efficiencies_amendable.py:216-252 | a run whose every hour burns nothing and leaves nothing unmet or surplus records no fuel, no unmet load and no battery exchange in any hour, totals zero fuel and ends at the initial charge |
| Simulation.IdleRunChangesNothing | Engine_usage_Tool_48h_with_efficiencies_amendable.py:118-276 | with every device off, no load and no sunlight, every hour burns nothing, leaves nothing unmet, and neither charges nor discharges the battery; total fuel is 0 and the charge ends where it started |

## Left out

- The Dash user interface: the layout, the usage-input generator, the click-details callback and server startup. These are presentation only.
- `run_integration_calc`: form parsing, object and dictionary building, plots and output formatting. Only the total fuel (the sum of the records' fuel) is kept, as `Simulation.TotalFuel`.
- `math.sin` is a library routine. It is the parameter `sinPi`, standing for x ↦ sin(πx). The irradiance bound assumes its values lie in [0, 1] on [0, 1).
- Floating-point rounding. All quantities are exact reals, so properties that hold only "within tolerance" in the program hold exactly here.
- The raw grid inputs `m1_grid_raw`, `m2_grid_raw`, `dg1_raw_input` and `dg2_raw_input` are computed but never used. So the path entry `path_eta['dg_grid']` has no effect on any output. It is kept as the `dgGrid` field and not used. The same input value also sets each generator's own `grid_eff` (lines 639-640). Generator fuel is costed through that field, `DieselGenerator.gridEfficiency`.
- Device names, and the `devices`, `usage_blocks`, `fuel_eta` and `path_eta` dictionaries. They become the `Fleet` and `PathEfficiency` records. A motor's or a generator's `max_power` entry in `devices` (lines 162-163, 197 and 200) is taken to be its object's rating.
- Out-of-range list indexing, which would raise an exception in the program. `Balance.WellFormed` requires every per-block list to have at least 12 entries and the schedule at least 48.
- Simulation.RunSimIntegration: requires the grid-to-shaft efficiency and the battery's discharge efficiency to be non-zero for the whole run. The program divides by them only when a shaft has remaining need or a discharge happens.
- Simulation.RunSimIntegration: the loop computes all 48 battery-independent hour plans first, then runs the battery exchange hour by hour. The program interleaves the two. Plans do not read the battery, so the records are the same.
- Simulation.HourAt: requires a non-zero discharge efficiency even for hours with nothing unmet.
- Balance.PlanHour: requires a non-zero grid-to-shaft efficiency even for hours with no remaining shaft need.
- Balance.PlanHour: ties the hour to block hour / 4 only through the propulsion split, the solar output and the per-device facts. The hotel and auxiliary leftovers are stated by `Balance.AllocateSolar`, not restated per hour.

=== FILE: balance.dfy ===
/** The energy balance of one hour, apart from the battery: solar allocation,
    propulsion routing through the two motors, grid production and grid
    allocation, and per-device fuel.  Everything here is a pure function of
    the run's inputs and the hour; the battery exchange that follows it is in
    module Simulation. */
module Balance {
  import opened Devices
  import opened Irradiance

  /** Four-hour blocks in the horizon: usage and loads are given per block. */
  const Blocks: nat := 12

  /** The block an hour belongs to. */
  function BlockOf(hour: nat): (b: nat)
    requires hour < Hours
    ensures b < Blocks && 4 * b <= hour < 4 * b + 4
  {
    hour / 4
  }

  /** A motor with its on/off switch, its usage fraction per block and its fuel rate in kWh/L. */
  datatype MotorSlot = MotorSlot(motor: MainPropulsionMotor, isOn: bool, usage: seq<real>, kWhPerL: real)

  /** A generator with its on/off switch, its usage fraction per block and its fuel rate in kWh/L. */
  datatype GeneratorSlot = GeneratorSlot(generator: DieselGenerator, isOn: bool, usage: seq<real>, kWhPerL: real)

  /** The four devices of the plant, each in its own slot. */
  datatype Fleet = Fleet(motor1: MotorSlot, motor2: MotorSlot, dg1: GeneratorSlot, dg2: GeneratorSlot)

  /** Path efficiencies shared by the run: motor to own shaft, motor to grid,
      motor cross-feed to the other shaft, generator to grid, grid to shaft. */
  datatype PathEfficiency = PathEfficiency(mDirect: real, mGrid: real, mCross: real, dgGrid: real, gridProp: real)

  /** Hotel, auxiliary and propulsion loads in kW, one value per block. */
  datatype Loads = Loads(hotel: seq<real>, aux: seq<real>, prop: seq<real>)

  /** Everything a run reads besides the battery. */
  datatype Scenario = Scenario(solar: SolarPower, fleet: Fleet, path: PathEfficiency, loads: Loads, irr: seq<real>)

  /** Every per-block input has an entry for every block, the schedule an entry
      for every hour, and no division the hour performs has a zero divisor. */
  predicate WellFormed(sc: Scenario) {
    && |sc.fleet.motor1.usage| >= Blocks && |sc.fleet.motor2.usage| >= Blocks
    && |sc.fleet.dg1.usage| >= Blocks && |sc.fleet.dg2.usage| >= Blocks
    && |sc.loads.hotel| >= Blocks && |sc.loads.aux| >= Blocks && |sc.loads.prop| >= Blocks
    && |sc.irr| >= Hours
    && sc.path.mDirect != 0.0 && sc.path.mCross != 0.0 && sc.path.gridProp != 0.0
    && (sc.fleet.motor1.isOn && sc.fleet.motor1.kWhPerL > 0.0 ==>
          sc.fleet.motor1.motor.directEfficiency != 0.0 && sc.fleet.motor1.motor.gridEfficiency != 0.0)
    && (sc.fleet.motor2.isOn && sc.fleet.motor2.kWhPerL > 0.0 ==>
          sc.fleet.motor2.motor.directEfficiency != 0.0 && sc.fleet.motor2.motor.gridEfficiency != 0.0)
    && (sc.fleet.dg1.isOn && sc.fleet.dg1.kWhPerL > 0.0 ==> sc.fleet.dg1.generator.gridEfficiency != 0.0)
    && (sc.fleet.dg2.isOn && sc.fleet.dg2.kWhPerL > 0.0 ==> sc.fleet.dg2.generator.gridEfficiency != 0.0)
  }

  /** Physically meaningful inputs: non-negative ratings, usage and propulsion
      load, and positive efficiencies on every path fuel is costed over. */
  predicate Physical(sc: Scenario)
    requires WellFormed(sc)
  {
    && sc.path.mDirect > 0.0 && sc.path.mCross > 0.0
    && sc.fleet.motor1.motor.maxPower >= 0.0 && sc.fleet.motor2.motor.maxPower >= 0.0
    && sc.fleet.motor1.motor.directEfficiency > 0.0 && sc.fleet.motor1.motor.gridEfficiency > 0.0
    && sc.fleet.motor2.motor.directEfficiency > 0.0 && sc.fleet.motor2.motor.gridEfficiency > 0.0
    && sc.fleet.dg1.generator.gridEfficiency > 0.0 && sc.fleet.dg2.generator.gridEfficiency > 0.0
    && (forall b :: 0 <= b < Blocks ==> sc.fleet.motor1.usage[b] >= 0.0)
    && (forall b :: 0 <= b < Blocks ==> sc.fleet.motor2.usage[b] >= 0.0)
    && (forall b :: 0 <= b < Blocks ==> sc.loads.prop[b] >= 0.0)
  }

  // ---------------------------------------------------------------------------
  // Solar allocation

  datatype SolarAllocation = SolarAllocation(
    usedHotel: real, usedAux: real, usedProp: real, solarLeft: real,
    hotelLeft: real, auxLeft: real, propLeft: real)

  /** Solar output goes to the hotel load first, then to the auxiliary load,
      then to propulsion; what no load takes is the solar surplus. */
  function AllocateSolar(hotelLoad: real, auxLoad: real, propLoad: real, solarKw: real): (s: SolarAllocation)
    ensures s.usedHotel + s.usedAux + s.usedProp + s.solarLeft == solarKw
    ensures s.hotelLeft == hotelLoad - s.usedHotel == Max(0.0, hotelLoad - solarKw)
    ensures s.auxLeft == auxLoad - s.usedAux == Max(0.0, auxLoad - Max(0.0, solarKw - hotelLoad))
    ensures s.propLeft == propLoad - s.usedProp >= 0.0
    ensures s.usedAux > 0.0 ==> s.hotelLeft == 0.0
    ensures s.usedProp > 0.0 ==> s.auxLeft == 0.0 && (auxLoad >= 0.0 ==> s.hotelLeft == 0.0)
    ensures s.solarLeft > 0.0 ==> s.propLeft == 0.0
    ensures s.solarLeft > 0.0 && auxLoad >= 0.0 && propLoad >= 0.0 ==> s.hotelLeft == 0.0 && s.auxLeft == 0.0
    ensures solarKw >= 0.0 && hotelLoad >= 0.0 && auxLoad >= 0.0 && propLoad >= 0.0 ==>
      s.usedHotel >= 0.0 && s.usedAux >= 0.0 && s.usedProp >= 0.0 && s.solarLeft >= 0.0
    ensures solarKw == 0.0 && hotelLoad >= 0.0 && auxLoad >= 0.0 && propLoad >= 0.0 ==>
      s.solarLeft == 0.0 && s.hotelLeft == hotelLoad && s.auxLeft == auxLoad && s.propLeft == propLoad
  {
    // each share is `Min(load, what is left)`, written out so that the solver
    // does not have to unfold `Min` when the loads and the solar output are zero
    var usedH := if solarKw < hotelLoad then solarKw else hotelLoad;
    var left1 := solarKw - usedH;
    var usedA := if left1 < auxLoad then left1 else auxLoad;
    var left2 := left1 - usedA;
    var usedP := if left2 < propLoad then left2 else propLoad;
    var left3 := left2 - usedP;
    SolarAllocation(usedH, usedA, usedP, left3, hotelLoad - usedH, auxLoad - usedA, propLoad - usedP)
  }

  // ---------------------------------------------------------------------------
  // Propulsion routing

  /** What one feed delivers to a shaft and the motor capacity it leaves. */
  datatype Feed = Feed(delivered: real, left: real)

  /** A motor with `avail` kW of capacity feeds `need` kW to a shaft over a path
      of efficiency `eff`: it delivers the need or all it can, whichever is
      less, and its capacity is debited by what the delivery cost at the motor. */
  function FeedShaft(need: real, avail: real, eff: real): (f: Feed)
    requires eff != 0.0
    ensures f.delivered <= need && f.delivered <= avail * eff
    ensures f.delivered == need || f.delivered == avail * eff
    ensures f.left == avail - f.delivered / eff
    ensures eff > 0.0 ==> f.left >= 0.0
    ensures eff > 0.0 && f.left > 0.0 ==> f.delivered == need
    ensures need >= 0.0 && avail >= 0.0 && eff > 0.0 ==> f.delivered >= 0.0
    ensures need >= 0.0 && avail == 0.0 ==> f.delivered == 0.0 && f.left == 0.0
  {
    var delivered := Min(need, avail * eff);
    DischargeBound(delivered, avail, eff);
    Feed(delivered, avail - delivered / eff)
  }

  /** Shaft power each motor delivers, directly to its own shaft and by
      cross-feed to the other one, and the motor capacity left afterwards. */
  datatype ShaftFeeds = ShaftFeeds(
    p1FromM1: real, p2FromM2: real, p2FromM1: real, p1FromM2: real, m1Left: real, m2Left: real)

  /** Each motor first drives its own shaft directly; then motor 1 cross-feeds
      what shaft 2 still needs, and motor 2 what shaft 1 still needs. */
  function FeedShafts(needP1: real, needP2: real, m1Avail: real, m2Avail: real, mDirect: real, mCross: real)
    : (f: ShaftFeeds)
    requires mDirect != 0.0 && mCross != 0.0
    ensures f.p1FromM1 + f.p1FromM2 <= needP1 && f.p2FromM2 + f.p2FromM1 <= needP2
    ensures f.m1Left == m1Avail - f.p1FromM1 / mDirect - f.p2FromM1 / mCross
    ensures f.m2Left == m2Avail - f.p2FromM2 / mDirect - f.p1FromM2 / mCross
    ensures mDirect > 0.0 && mCross > 0.0 ==>
      && f.m1Left >= 0.0 && f.m2Left >= 0.0
      && (f.p2FromM1 > 0.0 ==> f.p1FromM1 == needP1)
      && (f.p1FromM2 > 0.0 ==> f.p2FromM2 == needP2)
    ensures mDirect > 0.0 && mCross > 0.0 ==>
      && (f.m1Left > 0.0 ==> f.p1FromM1 == needP1 && f.p2FromM1 == needP2 - f.p2FromM2)
      && (f.m2Left > 0.0 ==> f.p2FromM2 == needP2 && f.p1FromM2 == needP1 - f.p1FromM1)
    ensures (needP1 >= 0.0 && needP2 >= 0.0 && m1Avail >= 0.0 && m2Avail >= 0.0 &&
             mDirect > 0.0 && mCross > 0.0) ==>
      f.p1FromM1 >= 0.0 && f.p2FromM1 >= 0.0 && f.p2FromM2 >= 0.0 && f.p1FromM2 >= 0.0
    ensures needP1 >= 0.0 && m1Avail == 0.0 ==> f.p1FromM1 == f.p2FromM1 == f.m1Left == 0.0
    ensures needP2 >= 0.0 && m2Avail == 0.0 ==> f.p2FromM2 == f.p1FromM2 == f.m2Left == 0.0
  {
    var direct1 := FeedShaft(needP1, m1Avail, mDirect);
    var direct2 := FeedShaft(needP2, m2Avail, mDirect);
    var cross1 := FeedShaft(needP2 - direct2.delivered, direct1.left, mCross);
    var cross2 := FeedShaft(needP1 - direct1.delivered, direct2.left, mCross);
    ShaftFeeds(direct1.delivered, direct2.delivered, cross1.delivered, cross2.delivered, cross1.left, cross2.left)
  }

  datatype Routing = Routing(
    needP1: real, needP2: real, feeds: ShaftFeeds,
    p1Supplied: real, p2Supplied: real, gridPropDemand: real)

  /** Splits the propulsion load evenly between the two shafts, feeds them from
      the motors, and turns the shafts' remaining need into a demand on the
      grid.  The split uses the propulsion load before solar is subtracted. */
  function RoutePropulsion(propLoad: real, m1Avail: real, m2Avail: real, path: PathEfficiency): (r: Routing)
    requires path.mDirect != 0.0 && path.mCross != 0.0 && path.gridProp != 0.0
    ensures r.needP1 == r.needP2 && r.needP1 + r.needP2 == propLoad
    ensures r.feeds == FeedShafts(r.needP1, r.needP2, m1Avail, m2Avail, path.mDirect, path.mCross)
    ensures r.p1Supplied == r.feeds.p1FromM1 + r.feeds.p1FromM2 <= r.needP1
    ensures r.p2Supplied == r.feeds.p2FromM2 + r.feeds.p2FromM1 <= r.needP2
    ensures r.gridPropDemand == GridPropDemand((r.needP1 - r.p1Supplied) + (r.needP2 - r.p2Supplied), path.gridProp)
    ensures path.gridProp > 0.0 ==> r.gridPropDemand >= 0.0
    ensures propLoad >= 0.0 && m1Avail == 0.0 ==> r.feeds.p1FromM1 == r.feeds.p2FromM1 == r.feeds.m1Left == 0.0
    ensures propLoad >= 0.0 && m2Avail == 0.0 ==> r.feeds.p2FromM2 == r.feeds.p1FromM2 == r.feeds.m2Left == 0.0
  {
    var needP1 := propLoad * 0.5;
    var needP2 := propLoad * 0.5;
    var feeds := FeedShafts(needP1, needP2, m1Avail, m2Avail, path.mDirect, path.mCross);
    var p1Supplied := feeds.p1FromM1 + feeds.p1FromM2;
    var p2Supplied := feeds.p2FromM2 + feeds.p2FromM1;
    var demand := GridPropDemand((needP1 - p1Supplied) + (needP2 - p2Supplied), path.gridProp);
    Routing(needP1, needP2, feeds, p1Supplied, p2Supplied, demand)
  }

  /** The shafts' remaining need seen from the grid: the electrical power that
      delivers it through the grid-to-shaft loss, or nothing when none remains. */
  function GridPropDemand(remainingKw: real, gridProp: real): (demand: real)
    requires gridProp != 0.0
    ensures demand * gridProp == Max(0.0, remainingKw)
    ensures remainingKw <= 0.0 ==> demand == 0.0
    ensures gridProp > 0.0 ==> demand >= 0.0
  {
    if remainingKw > 0.0 then remainingKw / gridProp else 0.0
  }

  // ---------------------------------------------------------------------------
  // Grid production

  /** A motor's remaining capacity converted to grid output, capped at its
      grid limit and floored at zero. */
  function MotorGridOut(availKw: real, mGrid: real, maxGridKw: real): (out: real)
    ensures 0.0 <= out <= Max(0.0, maxGridKw)
    ensures 0.0 <= availKw * mGrid <= maxGridKw ==> out == availKw * mGrid
    ensures availKw * mGrid >= maxGridKw >= 0.0 ==> out == maxGridKw
    ensures availKw * mGrid <= 0.0 ==> out == 0.0
    ensures availKw == 0.0 ==> out == 0.0
  {
    Max(Min(availKw * mGrid, maxGridKw), 0.0)
  }

  /** A generator's grid output: its block usage times its rating when on,
      floored at zero; nothing when off. */
  function GeneratorGridOut(slot: GeneratorSlot, block: nat): (out: real)
    requires block < |slot.usage|
    ensures out >= 0.0
    ensures !slot.isOn ==> out == 0.0
    ensures slot.isOn && slot.usage[block] * slot.generator.maxPower >= 0.0 ==>
      out == slot.usage[block] * slot.generator.maxPower
  {
    if slot.isOn then Max(slot.usage[block] * slot.generator.maxPower, 0.0) else 0.0
  }

  /** A motor's capacity in the block: usage times rating when on, else nothing. */
  function MotorAvailable(slot: MotorSlot, block: nat): (avail: real)
    requires block < |slot.usage|
    ensures !slot.isOn ==> avail == 0.0
    ensures slot.usage[block] >= 0.0 && slot.motor.maxPower >= 0.0 ==> avail >= 0.0
  {
    if slot.isOn then slot.usage[block] * slot.motor.maxPower else 0.0
  }

  // ---------------------------------------------------------------------------
  // Grid allocation

  datatype GridAllocation = GridAllocation(needHA: real, usedHA: real, gridLeft: real, usedProp: real, unmetGrid: real)

  /** The grid serves the hotel and auxiliary leftovers first and the
      propulsion demand with what remains; `unmetGrid` is what it cannot serve. */
  function AllocateGrid(totalGrid: real, hotelLeft: real, auxLeft: real, gridPropDemand: real): (g: GridAllocation)
    ensures g.needHA == hotelLeft + auxLeft
    ensures g.usedHA + g.gridLeft == totalGrid
    ensures g.usedHA <= totalGrid && g.gridLeft >= 0.0
    ensures gridPropDemand >= 0.0 ==> g.usedProp >= 0.0
    ensures g.usedHA <= g.needHA && g.usedProp <= gridPropDemand
    ensures g.usedHA + g.usedProp <= totalGrid
    ensures g.unmetGrid == (g.needHA - g.usedHA) + (gridPropDemand - g.usedProp) >= 0.0
    ensures g.usedProp > 0.0 ==> g.usedHA == g.needHA
    ensures g.usedHA < g.needHA ==> g.usedHA == totalGrid
    ensures gridPropDemand >= 0.0 && g.unmetGrid > 0.0 ==> g.gridLeft == g.usedProp
    ensures 0.0 <= hotelLeft + auxLeft && 0.0 <= gridPropDemand && hotelLeft + auxLeft + gridPropDemand <= totalGrid ==>
      g.usedHA == g.needHA && g.usedProp == gridPropDemand && g.unmetGrid == 0.0
  {
    var needHA := hotelLeft + auxLeft;
    // `Min(totalGrid, needHA)` and `Min(gridLeft, gridPropDemand)`, written out
    // as in `AllocateSolar`
    var usedHA := if needHA < totalGrid then needHA else totalGrid;
    var gridLeft := totalGrid - usedHA;
    var usedProp := if gridPropDemand < gridLeft then gridPropDemand else gridLeft;
    var unmet := needHA + gridPropDemand - (usedHA + usedProp);
    GridAllocation(needHA, usedHA, gridLeft, usedProp, unmet)
  }

  // ---------------------------------------------------------------------------
  // One hour's balance apart from the battery

  /** Every device is off, the hour's block has no load and the hour no sunlight. */
  predicate IdleHour(sc: Scenario, hour: nat)
    requires WellFormed(sc) && hour < Hours
  {
    && !sc.fleet.motor1.isOn && !sc.fleet.motor2.isOn && !sc.fleet.dg1.isOn && !sc.fleet.dg2.isOn
    && sc.loads.hotel[BlockOf(hour)] == 0.0 && sc.loads.aux[BlockOf(hour)] == 0.0
    && sc.loads.prop[BlockOf(hour)] == 0.0 && sc.irr[hour] == 0.0
  }

  /** The quantities of one hour that do not depend on the battery. */
  datatype Plan = Plan(
    solarKw: real, solar: SolarAllocation, routing: Routing,
    m1GridOut: real, m2GridOut: real, dg1GridOut: real, dg2GridOut: real,
    grid: GridAllocation, surplusGrid: real,
    m1Fuel: real, m2Fuel: real, dg1Fuel: real, dg2Fuel: real)

  /** Fuel of a motor slot: nothing when off, else both its paths costed. */
  function MotorFuel(slot: MotorSlot, mechanicalKw: real, electricalKw: real): (litres: real)
    requires slot.isOn && slot.kWhPerL > 0.0 ==>
      slot.motor.directEfficiency != 0.0 && slot.motor.gridEfficiency != 0.0
    ensures !slot.isOn || slot.kWhPerL <= 0.0 ==> litres == 0.0
    ensures (mechanicalKw >= 0.0 && electricalKw >= 0.0 &&
             slot.motor.directEfficiency > 0.0 && slot.motor.gridEfficiency > 0.0) ==> litres >= 0.0
  {
    if slot.isOn then slot.motor.FuelConsumed(mechanicalKw, electricalKw, slot.kWhPerL) else 0.0
  }

  /** Fuel of a generator slot: nothing when off, else its grid output costed. */
  function GeneratorFuel(slot: GeneratorSlot, gridKw: real): (litres: real)
    requires slot.isOn && slot.kWhPerL > 0.0 ==> slot.generator.gridEfficiency != 0.0
    ensures !slot.isOn || slot.kWhPerL <= 0.0 ==> litres == 0.0
    ensures gridKw >= 0.0 && slot.generator.gridEfficiency > 0.0 ==> litres >= 0.0
  {
    if slot.isOn then slot.generator.FuelConsumed(gridKw, slot.kWhPerL) else 0.0
  }

  /** The motors' share of one block: propulsion routing, their grid output
      and their fuel. */
  datatype MotorPlan = MotorPlan(routing: Routing, m1GridOut: real, m2GridOut: real, m1Fuel: real, m2Fuel: real)

  /** Routes the block's propulsion load through the two motors, turns what
      capacity they have left into grid output and costs their fuel. */
  function PlanMotors(sc: Scenario, block: nat): (mp: MotorPlan)
    requires WellFormed(sc) && block < Blocks
    ensures mp.routing.needP1 + mp.routing.needP2 == sc.loads.prop[block]
    ensures sc.path.gridProp > 0.0 ==> mp.routing.gridPropDemand >= 0.0
    ensures mp.m1GridOut >= 0.0 && mp.m2GridOut >= 0.0
    ensures !sc.fleet.motor1.isOn ==> mp.m1Fuel == 0.0
    ensures !sc.fleet.motor2.isOn ==> mp.m2Fuel == 0.0
    ensures sc.loads.prop[block] >= 0.0 && !sc.fleet.motor1.isOn ==>
      mp.routing.feeds.p1FromM1 == mp.routing.feeds.p2FromM1 == mp.m1GridOut == 0.0
    ensures sc.loads.prop[block] >= 0.0 && !sc.fleet.motor2.isOn ==>
      mp.routing.feeds.p2FromM2 == mp.routing.feeds.p1FromM2 == mp.m2GridOut == 0.0
    ensures Physical(sc) ==> mp.m1Fuel >= 0.0 && mp.m2Fuel >= 0.0
    ensures sc.loads.prop[block] == 0.0 && !sc.fleet.motor1.isOn && !sc.fleet.motor2.isOn ==>
      mp.routing.gridPropDemand == 0.0
  {
    var fleet := sc.fleet;
    var routing := RoutePropulsion(sc.loads.prop[block], MotorAvailable(fleet.motor1, block),
                                   MotorAvailable(fleet.motor2, block), sc.path);
    var m1GridOut := MotorGridOut(routing.feeds.m1Left, sc.path.mGrid, fleet.motor1.motor.maxGridKw);
    var m2GridOut := MotorGridOut(routing.feeds.m2Left, sc.path.mGrid, fleet.motor2.motor.maxGridKw);
    MotorPlan(routing, m1GridOut, m2GridOut,
              MotorFuel(fleet.motor1, routing.feeds.p1FromM1 + routing.feeds.p2FromM1, m1GridOut),
              MotorFuel(fleet.motor2, routing.feeds.p2FromM2 + routing.feeds.p1FromM2, m2GridOut))
  }

  /** Solar allocation, propulsion routing, grid production, grid allocation
      and fuel for hour `hour`, using the loads and usage of its block.
      Generator fuel is costed on the generator's grid output, i.e. after the
      grid conversion loss. */
  function PlanHour(sc: Scenario, hour: nat): (plan: Plan)
    requires WellFormed(sc) && hour < Hours
    ensures plan.solarKw == sc.solar.GeneratePower(sc.irr[hour])
    ensures plan.surplusGrid == (plan.grid.gridLeft - plan.grid.usedProp) + plan.solar.solarLeft
    ensures plan.grid.needHA == plan.solar.hotelLeft + plan.solar.auxLeft
    ensures plan.grid.usedHA + plan.grid.gridLeft ==
      plan.m1GridOut + plan.m2GridOut + plan.dg1GridOut + plan.dg2GridOut
    ensures plan.routing.needP1 + plan.routing.needP2 == sc.loads.prop[BlockOf(hour)]
    ensures !sc.fleet.motor1.isOn ==> plan.m1Fuel == 0.0
    ensures !sc.fleet.motor2.isOn ==> plan.m2Fuel == 0.0
    ensures !sc.fleet.dg1.isOn ==> plan.dg1Fuel == 0.0 && plan.dg1GridOut == 0.0
    ensures !sc.fleet.dg2.isOn ==> plan.dg2Fuel == 0.0 && plan.dg2GridOut == 0.0
    ensures sc.loads.prop[BlockOf(hour)] >= 0.0 && !sc.fleet.motor1.isOn ==>
      plan.routing.feeds.p1FromM1 == plan.routing.feeds.p2FromM1 == plan.m1GridOut == 0.0
    ensures sc.loads.prop[BlockOf(hour)] >= 0.0 && !sc.fleet.motor2.isOn ==>
      plan.routing.feeds.p2FromM2 == plan.routing.feeds.p1FromM2 == plan.m2GridOut == 0.0
    ensures Physical(sc) ==>
      plan.m1Fuel >= 0.0 && plan.m2Fuel >= 0.0 && plan.dg1Fuel >= 0.0 && plan.dg2Fuel >= 0.0
    ensures sc.path.gridProp > 0.0 && plan.grid.unmetGrid > 0.0 ==> plan.surplusGrid == plan.solar.solarLeft
    ensures plan.grid.unmetGrid >= 0.0
    ensures IdleHour(sc, hour) ==> plan.grid.unmetGrid == 0.0 && plan.surplusGrid == 0.0
  {
    var block := BlockOf(hour);
    var fleet := sc.fleet;
    var solarKw := sc.solar.GeneratePower(sc.irr[hour]);
    var solar := AllocateSolar(sc.loads.hotel[block], sc.loads.aux[block], sc.loads.prop[block], solarKw);
    var motors := PlanMotors(sc, block);
    var dg1GridOut := GeneratorGridOut(fleet.dg1, block);
    var dg2GridOut := GeneratorGridOut(fleet.dg2, block);
    var totalGrid := motors.m1GridOut + motors.m2GridOut + dg1GridOut + dg2GridOut;
    var grid := AllocateGrid(totalGrid, solar.hotelLeft, solar.auxLeft, motors.routing.gridPropDemand);
    var surplusGrid := (grid.gridLeft - grid.usedProp) + solar.solarLeft;
    Plan(solarKw, solar, motors.routing, motors.m1GridOut, motors.m2GridOut, dg1GridOut, dg2GridOut,
         grid, surplusGrid, motors.m1Fuel, motors.m2Fuel,
         GeneratorFuel(fleet.dg1, dg1GridOut),
         GeneratorFuel(fleet.dg2, dg2GridOut))
  }
}

=== FILE: devices.dfy ===
/** Device models of the hybrid vessel's power plant.

    The diesel generators, the propulsion motors and the solar array are
    stateless conversion formulas; the battery is the only device whose state
    (its state of charge) changes.  Power is in kW, energy in kWh, fuel rates
    in kWh per litre; every quantity is a `real`. */
module Devices {

  datatype Option<T> = None | Some(value: T)

  function Min(a: real, b: real): real { if b < a then b else a }

  function Max(a: real, b: real): real { if b > a then b else a }

  /** A diesel generator feeding the grid through a conversion loss. */
  datatype DieselGenerator = DieselGenerator(name: string, maxPower: real, gridEfficiency: real := 0.95)
  {
    /** Litres burned to put `gridKw` on the grid, `gridKw` being measured
        after the conversion loss; no fuel is counted for a non-positive rate. */
    function FuelConsumed(gridKw: real, kWhPerL: real): (litres: real)
      requires kWhPerL > 0.0 ==> gridEfficiency != 0.0
      ensures kWhPerL <= 0.0 ==> litres == 0.0
      ensures kWhPerL > 0.0 ==> litres * kWhPerL * gridEfficiency == gridKw
      ensures gridKw >= 0.0 && gridEfficiency > 0.0 ==> litres >= 0.0
    {
      if kWhPerL > 0.0 then gridKw / gridEfficiency / kWhPerL else 0.0
    }
  }

  /** A main propulsion motor: a direct mechanical path to its own shaft and an
      electrical path to the grid, the latter capped at `maxGridKw`. */
  datatype MainPropulsionMotor = MainPropulsionMotor(
    name: string, maxPower: real, directEfficiency: real, gridEfficiency: real, maxGridKw: real)
  {
    /** Litres burned for `mechanicalKw` of shaft power and `electricalKw` of
        grid output: the two paths are costed independently and added. */
    function FuelConsumed(mechanicalKw: real, electricalKw: real, kWhPerL: real): (litres: real)
      requires kWhPerL > 0.0 ==> directEfficiency != 0.0 && gridEfficiency != 0.0
      ensures kWhPerL <= 0.0 ==> litres == 0.0
      ensures kWhPerL > 0.0 ==>
        litres * kWhPerL == mechanicalKw / directEfficiency + electricalKw / gridEfficiency
      ensures (mechanicalKw >= 0.0 && electricalKw >= 0.0 &&
               directEfficiency > 0.0 && gridEfficiency > 0.0) ==> litres >= 0.0
    {
      if kWhPerL > 0.0 then
        mechanicalKw / directEfficiency / kWhPerL + electricalKw / gridEfficiency / kWhPerL
      else 0.0
    }
  }

  /** Builds a motor; when no grid cap is given the cap is the motor's rating. */
  function NewMainPropulsionMotor(
    name: string, maxPowerKw: real, directEff: real := 1.0, gridEff: real := 0.95,
    maxGridKw: Option<real> := None): (m: MainPropulsionMotor)
    ensures m.name == name && m.maxPower == maxPowerKw
    ensures m.directEfficiency == directEff && m.gridEfficiency == gridEff
    ensures maxGridKw.None? ==> m.maxGridKw == m.maxPower
    ensures maxGridKw.Some? ==> m.maxGridKw == maxGridKw.value
  {
    MainPropulsionMotor(name, maxPowerKw, directEff, gridEff,
      if maxGridKw.Some? then maxGridKw.value else maxPowerKw)
  }

  /** A solar array of `area` square metres with panel efficiency `eff`. */
  datatype SolarPower = SolarPower(area: real, eff: real)
  {
    /** Output in kW for an irradiance of `irrKwM2` kW per square metre. */
    function GeneratePower(irrKwM2: real): (kw: real)
      ensures irrKwM2 == 0.0 ==> kw == 0.0
      ensures area >= 0.0 && eff >= 0.0 && irrKwM2 >= 0.0 ==> kw >= 0.0
      ensures area >= 0.0 && eff >= 0.0 && irrKwM2 <= 1.0 ==> kw <= area * eff
    {
      ScaleBounds(area * eff, irrKwM2);
      area * eff * irrKwM2
    }
  }

  /** Scaling a non-negative rating by a fraction keeps it between 0 and the rating. */
  lemma ScaleBounds(k: real, x: real)
    ensures k >= 0.0 && x >= 0.0 ==> k * x >= 0.0
    ensures k >= 0.0 && x <= 1.0 ==> k * x <= k
  {
    if k >= 0.0 && x <= 1.0 {
      assert k * (1.0 - x) >= 0.0;
    }
  }

  /** The battery's fixed configuration. */
  datatype BatteryParams = BatteryParams(capacity: real, minSoc: real, chargeEff: real, dischargeEff: real)

  /** What one charge or discharge call moves (`amount`) and the state of
      charge it leaves behind (`soc`). */
  datatype Transfer = Transfer(amount: real, soc: real)

  /** Storing a surplus: the amount absorbed is the surplus after the charge
      loss, cut down to the free capacity. */
  function ChargeStep(p: BatteryParams, soc: real, surplusKw: real): (t: Transfer)
    ensures surplusKw <= 0.0 ==> t == Transfer(0.0, soc)
    ensures t.soc == soc + t.amount
    ensures surplusKw > 0.0 ==>
      && t.amount <= surplusKw * p.chargeEff
      && t.amount <= p.capacity - soc
      && (t.amount == surplusKw * p.chargeEff || t.amount == p.capacity - soc)
    ensures surplusKw > 0.0 ==> t.soc <= p.capacity
    ensures surplusKw > 0.0 && surplusKw * p.chargeEff >= p.capacity - soc ==> t.soc == p.capacity
    ensures p.chargeEff >= 0.0 && soc <= p.capacity ==> t.amount >= 0.0
    ensures p.chargeEff <= 1.0 ==> t.amount <= Max(0.0, surplusKw)
  {
    if surplusKw <= 0.0 then Transfer(0.0, soc)
    else
      var freeCap := p.capacity - soc;
      var storable := surplusKw * p.chargeEff;
      assert p.chargeEff <= 1.0 ==> surplusKw * (1.0 - p.chargeEff) >= 0.0;
      var stored := Min(storable, freeCap);
      Transfer(stored, soc + stored)
  }

  /** Covering a need: the amount delivered is the need, cut down to what lies
      above the minimum state of charge after the discharge loss; the state of
      charge falls by the stored energy that delivery took. */
  function DischargeStep(p: BatteryParams, soc: real, neededKw: real): (t: Transfer)
    requires neededKw <= 0.0 || p.dischargeEff != 0.0
    ensures neededKw <= 0.0 ==> t == Transfer(0.0, soc)
    ensures neededKw > 0.0 ==>
      && t.amount <= neededKw
      && t.amount <= Max(0.0, soc - p.minSoc) * p.dischargeEff
      && (t.amount == neededKw || t.amount == Max(0.0, soc - p.minSoc) * p.dischargeEff)
      && t.soc == soc - t.amount / p.dischargeEff
    ensures neededKw > 0.0 && neededKw <= Max(0.0, soc - p.minSoc) * p.dischargeEff ==> t.amount == neededKw
    ensures p.dischargeEff > 0.0 && p.minSoc <= soc ==> p.minSoc <= t.soc <= soc
  {
    if neededKw <= 0.0 then Transfer(0.0, soc)
    else
      var available := Max(0.0, soc - p.minSoc);
      var maxOut := available * p.dischargeEff;
      var used := Min(neededKw, maxOut);
      DischargeBound(used, available, p.dischargeEff);
      Transfer(used, soc - used / p.dischargeEff)
  }

  /** Drawing at most `available * eff` after the loss debits at most `available`. */
  lemma DischargeBound(used: real, available: real, eff: real)
    requires eff != 0.0
    requires eff > 0.0 ==> used <= available * eff
    ensures eff > 0.0 ==> used / eff <= available
  {
    if eff > 0.0 {
      assert (available * eff) / eff == available;
    }
  }

  /** The battery the simulation charges and discharges in place.  Its
      configuration is fixed at construction; only `soc` changes. */
  class Battery {
    const capacity: real
    const minSoc: real
    const chargeEff: real
    const dischargeEff: real
    var soc: real

    function Params(): BatteryParams {
      BatteryParams(capacity, minSoc, chargeEff, dischargeEff)
    }

    /** The state of charge lies between the minimum and the capacity. */
    predicate InRange()
      reads this
    {
      minSoc <= soc <= capacity
    }

    /** Without an initial state of charge the battery starts half full. */
    constructor (capacityKwh: real, minSocKwh: real, initialSocKwh: Option<real> := None,
                 chargeEff: real := 1.0, dischargeEff: real := 1.0)
      ensures Params() == BatteryParams(capacityKwh, minSocKwh, chargeEff, dischargeEff)
      ensures initialSocKwh.Some? ==> soc == initialSocKwh.value
      ensures initialSocKwh.None? ==> soc == 0.5 * capacityKwh
    {
      capacity := capacityKwh;
      minSoc := minSocKwh;
      soc := if initialSocKwh.Some? then initialSocKwh.value else 0.5 * capacityKwh;
      this.chargeEff := chargeEff;
      this.dischargeEff := dischargeEff;
    }

    /** Stores what it can of `surplusKw` and returns the amount stored. */
    method Charge(surplusKw: real) returns (stored: real)
      modifies this
      ensures stored == ChargeStep(Params(), old(soc), surplusKw).amount
      ensures soc == old(soc) + stored
      ensures chargeEff >= 0.0 && old(InRange()) ==> InRange() && old(soc) <= soc
    {
      if surplusKw <= 0.0 {
        return 0.0;
      }
      var freeCap := capacity - soc;
      var storable := surplusKw * chargeEff;
      stored := Min(storable, freeCap);
      soc := soc + stored;
    }

    /** Delivers what it can of `neededKw` and returns the amount delivered. */
    method Discharge(neededKw: real) returns (used: real)
      requires neededKw <= 0.0 || dischargeEff != 0.0
      modifies this
      ensures used == DischargeStep(Params(), old(soc), neededKw).amount
      ensures soc == DischargeStep(Params(), old(soc), neededKw).soc
      ensures dischargeEff > 0.0 && old(InRange()) ==> InRange() && soc <= old(soc)
    {
      if neededKw <= 0.0 {
        return 0.0;
      }
      var available := soc - minSoc;
      if available < 0.0 {
        available := 0.0;
      }
      var maxOut := available * dischargeEff;
      used := Min(neededKw, maxOut);
      soc := soc - used / dischargeEff;
    }
  }
}

=== FILE: irradiance.dfy ===
/** The irradiance schedule: a solar-irradiance fraction for every hour of the
    48-hour horizon, following the same daily shape on both days.

    The daily shape is a half sine wave between sunrise and sunset.  The sine
    is a library routine outside this model, so it is passed in as `sinPi`,
    standing for x |-> sin(pi * x); only properties that do not depend on its
    values (the zero pattern and the 24-hour period), and a bound that holds
    whenever it stays within [0, 1] on [0, 1), are proved. */
module Irradiance {

  /** Hours in the simulated horizon. */
  const Hours: nat := 48

  /** Hours in a day. */
  const Day: nat := 24

  /** Sunrise and sunset (as hours of the day) bound a non-empty daylight window. */
  predicate IsDaylight(sunrise: real, sunset: real, h: nat) {
    sunset - sunrise > 0.0 && sunrise <= (h % Day) as real < sunset
  }

  /** The irradiance fraction at hour `h`: `peak * sin(pi * frac)` where `frac`
      is how far the hour of the day lies into the daylight window, and zero
      outside it. */
  function IrradianceAt(sinPi: real -> real, sunrise: real, sunset: real, peak: real, h: nat): (r: real)
    ensures sunset <= sunrise ==> r == 0.0
    ensures !(sunrise <= (h % Day) as real < sunset) ==> r == 0.0
    ensures peak == 0.0 ==> r == 0.0
  {
    if IsDaylight(sunrise, sunset, h) then
      peak * sinPi(((h % Day) as real - sunrise) / (sunset - sunrise))
    else 0.0
  }

  /** Fills a 48-slot array hour by hour with the daily shape. */
  method CreateIrrSchedule(sinPi: real -> real, sunrise: real, sunset: real, peak: real := 1.0)
    returns (schedule: seq<real>)
    ensures |schedule| == Hours
    ensures forall h :: 0 <= h < Hours ==> schedule[h] == IrradianceAt(sinPi, sunrise, sunset, peak, h)
    ensures sunset <= sunrise ==> forall h :: 0 <= h < Hours ==> schedule[h] == 0.0
    ensures forall h :: 0 <= h < Hours && !(sunrise <= (h % Day) as real < sunset) ==> schedule[h] == 0.0
    ensures forall h :: 0 <= h < Day ==> schedule[h] == schedule[h + Day]
  {
    var arr := new real[Hours](_ => 0.0);
    var dh := sunset - sunrise;
    if dh > 0.0 {
      for h := 0 to Hours
        invariant forall k :: 0 <= k < h ==> arr[k] == IrradianceAt(sinPi, sunrise, sunset, peak, k)
        invariant forall k :: h <= k < Hours ==> arr[k] == 0.0
      {
        var modHour := h % Day;
        assert IsDaylight(sunrise, sunset, h) <==> sunrise <= modHour as real < sunset;
        if sunrise <= modHour as real < sunset {
          var frac := (modHour as real - sunrise) / dh;
          arr[h] := peak * sinPi(frac);
        }
        assert arr[h] == IrradianceAt(sinPi, sunrise, sunset, peak, h);
      }
    }
    schedule := arr[..];
    forall h | 0 <= h < Day
      ensures schedule[h] == schedule[h + Day]
    {
      IrradiancePeriodic(sinPi, sunrise, sunset, peak, h);
    }
  }

  /** The schedule repeats every day. */
  lemma IrradiancePeriodic(sinPi: real -> real, sunrise: real, sunset: real, peak: real, h: nat)
    ensures IrradianceAt(sinPi, sunrise, sunset, peak, h + Day) == IrradianceAt(sinPi, sunrise, sunset, peak, h)
  {
    assert (h + Day) % Day == h % Day;
  }

  /** A point inside the daylight window lies at a fraction in [0, 1) of it. */
  lemma DaylightFraction(sunrise: real, sunset: real, h: nat)
    requires IsDaylight(sunrise, sunset, h)
    ensures 0.0 <= ((h % Day) as real - sunrise) / (sunset - sunrise) < 1.0
  {
    FractionInUnit((h % Day) as real - sunrise, sunset - sunrise);
  }

  lemma FractionInUnit(a: real, d: real)
    requires 0.0 <= a < d
    ensures 0.0 <= a / d < 1.0
  {
  }

  /** With a sine that stays in [0, 1] on [0, 1) and a non-negative peak, every
      hour's irradiance lies between 0 and the peak. */
  lemma IrradianceBounded(sinPi: real -> real, sunrise: real, sunset: real, peak: real, h: nat)
    requires peak >= 0.0
    requires forall x :: 0.0 <= x < 1.0 ==> 0.0 <= sinPi(x) <= 1.0
    ensures 0.0 <= IrradianceAt(sinPi, sunrise, sunset, peak, h) <= peak
  {
    if IsDaylight(sunrise, sunset, h) {
      var frac := ((h % Day) as real - sunrise) / (sunset - sunrise);
      DaylightFraction(sunrise, sunset, h);
      var s := sinPi(frac);
      assert 0.0 <= s <= 1.0;
      assert peak * s >= 0.0;
      assert peak * (1.0 - s) >= 0.0;
    }
  }
}

=== FILE: simulation.dfy ===
/** The 48-hour simulation: each hour's balance (module Balance) followed by
    the battery exchange, run for hours 0 to 47 in order on one battery whose
    state of charge carries from each hour to the next. */
module Simulation {
  import opened Devices
  import opened Irradiance
  import opened Balance

  /** Fuel burned and grid output of one device in one hour. */
  datatype DeviceOutput = DeviceOutput(fuelUsed: real, gridOut: real)

  /** The record kept for each hour. */
  datatype HourRecord = HourRecord(
    hour: nat, solarKw: real,
    hotelLeft: real, auxLeft: real, propLeft: real,
    prop1Supplied: real, prop2Supplied: real,
    fuelUsed: real, battOut: real, charged: real,
    unmetLoad: real, excessEnergy: real,
    startSoc: real, endSoc: real,
    motor1: DeviceOutput, motor2: DeviceOutput, dg1: DeviceOutput, dg2: DeviceOutput)

  /** Assembles an hour's record from its plan and its battery exchange. */
  function MakeRecord(hour: nat, plan: Plan, battOut: real, charged: real, unmetLoad: real,
                      excess: real, startSoc: real, endSoc: real): (rec: HourRecord)
    ensures rec.fuelUsed == rec.motor1.fuelUsed + rec.motor2.fuelUsed + rec.dg1.fuelUsed + rec.dg2.fuelUsed
    ensures rec.motor1 == DeviceOutput(plan.m1Fuel, plan.m1GridOut)
    ensures rec.motor2 == DeviceOutput(plan.m2Fuel, plan.m2GridOut)
    ensures rec.dg1 == DeviceOutput(plan.dg1Fuel, plan.dg1GridOut)
    ensures rec.dg2 == DeviceOutput(plan.dg2Fuel, plan.dg2GridOut)
    ensures rec.hotelLeft == plan.solar.hotelLeft && rec.auxLeft == plan.solar.auxLeft
    ensures rec.propLeft == plan.solar.propLeft
    ensures rec.prop1Supplied == plan.routing.p1Supplied && rec.prop2Supplied == plan.routing.p2Supplied
  {
    HourRecord(
      hour, plan.solarKw,
      plan.solar.hotelLeft, plan.solar.auxLeft, plan.solar.propLeft,
      plan.routing.p1Supplied, plan.routing.p2Supplied,
      plan.m1Fuel + plan.m2Fuel + plan.dg1Fuel + plan.dg2Fuel,
      battOut, charged, unmetLoad, excess, startSoc, endSoc,
      DeviceOutput(plan.m1Fuel, plan.m1GridOut), DeviceOutput(plan.m2Fuel, plan.m2GridOut),
      DeviceOutput(plan.dg1Fuel, plan.dg1GridOut), DeviceOutput(plan.dg2Fuel, plan.dg2GridOut))
  }

  /** No device of the plan burns a negative amount of fuel. */
  predicate FuelsNonNegative(plan: Plan) {
    plan.m1Fuel >= 0.0 && plan.m2Fuel >= 0.0 && plan.dg1Fuel >= 0.0 && plan.dg2Fuel >= 0.0
  }

  /** The plan leaves nothing for the battery to do: no unmet demand and no surplus. */
  predicate Quiet(plan: Plan) {
    plan.grid.unmetGrid <= 0.0 && plan.surplusGrid <= 0.0
  }

  /** What the run relies on about the plan of hour `h`: the hour's sunlight,
      the propulsion load of block h / 4, a non-negative shortfall, no fuel
      from a device that is off, non-negative fuel on physical inputs, and
      nothing for the battery to do in an idle hour. */
  predicate HourFacts(sc: Scenario, h: nat, plan: Plan)
    requires WellFormed(sc) && h < Hours
  {
    && plan.solarKw == sc.solar.GeneratePower(sc.irr[h])
    && plan.routing.needP1 + plan.routing.needP2 == sc.loads.prop[h / 4]
    && plan.grid.unmetGrid >= 0.0
    && (!sc.fleet.motor1.isOn ==> plan.m1Fuel == 0.0)
    && (!sc.fleet.motor2.isOn ==> plan.m2Fuel == 0.0)
    && (!sc.fleet.dg1.isOn ==> plan.dg1Fuel == 0.0 && plan.dg1GridOut == 0.0)
    && (!sc.fleet.dg2.isOn ==> plan.dg2Fuel == 0.0 && plan.dg2GridOut == 0.0)
    && (Physical(sc) ==> FuelsNonNegative(plan))
    && (IdleHour(sc, h) ==> Quiet(plan))
  }

  /** Each hour's balance has the facts the run relies on. */
  lemma PlanHourFacts(sc: Scenario, hour: nat)
    requires WellFormed(sc) && hour < Hours
    ensures HourFacts(sc, hour, PlanHour(sc, hour))
  {
    assert BlockOf(hour) == hour / 4;
  }

  /** Every hour's balance has the facts the run relies on. */
  lemma AllPlanHourFacts(sc: Scenario)
    requires WellFormed(sc)
    ensures forall h :: 0 <= h < Hours ==> HourFacts(sc, h, PlanHour(sc, h))
  {
    forall h | 0 <= h < Hours
      ensures HourFacts(sc, h, PlanHour(sc, h))
    {
      PlanHourFacts(sc, h);
    }
  }

  /** The battery-independent part of every hour of the run, in hour order. */
  function Plans(sc: Scenario): (plans: seq<Plan>)
    requires WellFormed(sc)
    ensures |plans| == Hours
    ensures forall h :: 0 <= h < Hours ==> HourFacts(sc, h, plans[h])
  {
    AllPlanHourFacts(sc);
    seq(Hours, h requires 0 <= h < Hours => PlanHour(sc, h))
  }

  /** Hour `hour` with plan `plan`, starting at state of charge `soc`: the
      battery discharges to cover what the grid left unmet, then charges from
      the grid's leftover plus the solar surplus; what it cannot absorb is
      excess energy. */
  function HourAt(p: BatteryParams, plan: Plan, hour: nat, soc: real): (rec: HourRecord)
    requires p.dischargeEff != 0.0
    ensures rec.hour == hour && rec.startSoc == soc
    ensures rec.fuelUsed == rec.motor1.fuelUsed + rec.motor2.fuelUsed + rec.dg1.fuelUsed + rec.dg2.fuelUsed
    ensures rec.motor1 == DeviceOutput(plan.m1Fuel, plan.m1GridOut)
    ensures rec.motor2 == DeviceOutput(plan.m2Fuel, plan.m2GridOut)
    ensures rec.dg1 == DeviceOutput(plan.dg1Fuel, plan.dg1GridOut)
    ensures rec.dg2 == DeviceOutput(plan.dg2Fuel, plan.dg2GridOut)
    ensures rec.endSoc == soc + rec.charged - rec.battOut / p.dischargeEff
    ensures rec.unmetLoad == plan.grid.unmetGrid - rec.battOut
    ensures plan.grid.unmetGrid >= 0.0 ==> rec.unmetLoad >= 0.0
    ensures rec.battOut != 0.0 ==> plan.grid.unmetGrid > 0.0
    ensures rec.charged != 0.0 ==> plan.surplusGrid > 0.0
    ensures rec.excessEnergy == Max(0.0, plan.surplusGrid - rec.charged)
    ensures p.chargeEff <= 1.0 ==> rec.charged + rec.excessEnergy == Max(0.0, plan.surplusGrid)
    ensures 0.0 <= plan.grid.unmetGrid <= Max(0.0, soc - p.minSoc) * p.dischargeEff ==> rec.unmetLoad == 0.0
    ensures p.dischargeEff > 0.0 && p.chargeEff >= 0.0 && p.minSoc <= soc <= p.capacity ==>
      p.minSoc <= rec.endSoc <= p.capacity
    ensures rec.battOut <= Max(0.0, plan.grid.unmetGrid)
    ensures p.dischargeEff >= 0.0 ==> rec.battOut <= Max(0.0, soc - p.minSoc) * p.dischargeEff
    ensures Quiet(plan) ==> rec.battOut == 0.0 && rec.charged == 0.0 && rec.endSoc == soc
  {
    var unmet := plan.grid.unmetGrid;
    var out := if unmet > 0.0 then DischargeStep(p, soc, unmet) else Transfer(0.0, soc);
    var into := if plan.surplusGrid > 0.0 then ChargeStep(p, out.soc, plan.surplusGrid) else Transfer(0.0, out.soc);
    var excess := Max(0.0, plan.surplusGrid - into.amount);
    MakeRecord(hour, plan, out.amount, into.amount, unmet - out.amount, excess, soc, into.soc)
  }

  /** The battery covers an hour's unmet demand by discharging as far as its
      charge above the minimum allows, and gives all of that when the demand
      is at least as large. */
  lemma HourDischarge(p: BatteryParams, plan: Plan, hour: nat, soc: real, rec: HourRecord)
    requires p.dischargeEff != 0.0 && rec == HourAt(p, plan, hour, soc)
    ensures plan.grid.unmetGrid > 0.0 ==> rec.battOut == DischargeStep(p, soc, plan.grid.unmetGrid).amount
    ensures plan.grid.unmetGrid > 0.0 && plan.grid.unmetGrid >= Max(0.0, soc - p.minSoc) * p.dischargeEff ==>
      rec.battOut == Max(0.0, soc - p.minSoc) * p.dischargeEff
  {
    var unmet := plan.grid.unmetGrid;
    var out := if unmet > 0.0 then DischargeStep(p, soc, unmet) else Transfer(0.0, soc);
    assert rec.battOut == out.amount;
  }

  /** After discharging, the battery absorbs the hour's surplus up to its free
      capacity: all of it (after the charging loss) when it fits, and up to
      full capacity when it does not. */
  lemma HourCharge(p: BatteryParams, plan: Plan, hour: nat, soc: real, rec: HourRecord)
    requires p.dischargeEff != 0.0 && rec == HourAt(p, plan, hour, soc)
    ensures plan.surplusGrid > 0.0 ==>
      rec.charged == ChargeStep(p, soc - rec.battOut / p.dischargeEff, plan.surplusGrid).amount
    ensures plan.surplusGrid > 0.0 && plan.surplusGrid * p.chargeEff <= p.capacity - (soc - rec.battOut / p.dischargeEff) ==>
      rec.charged == plan.surplusGrid * p.chargeEff
    ensures plan.surplusGrid > 0.0 && plan.surplusGrid * p.chargeEff >= p.capacity - (soc - rec.battOut / p.dischargeEff) ==>
      rec.endSoc == p.capacity
  {
    var unmet := plan.grid.unmetGrid;
    var out := if unmet > 0.0 then DischargeStep(p, soc, unmet) else Transfer(0.0, soc);
    var into := if plan.surplusGrid > 0.0 then ChargeStep(p, out.soc, plan.surplusGrid) else Transfer(0.0, out.soc);
    assert rec.battOut == out.amount && rec.charged == into.amount && rec.endSoc == into.soc;
    if plan.surplusGrid > 0.0 {
      assert out.soc == soc - rec.battOut / p.dischargeEff;
      assert into == ChargeStep(p, soc - rec.battOut / p.dischargeEff, plan.surplusGrid);
    }
  }

  /** State of charge after the first `n` hours of a run started at `soc0`. */
  function SocAfter(p: BatteryParams, plans: seq<Plan>, soc0: real, n: nat): (soc: real)
    requires n <= |plans| && p.dischargeEff != 0.0
    ensures p.dischargeEff > 0.0 && p.chargeEff >= 0.0 && p.minSoc <= soc0 <= p.capacity ==>
      p.minSoc <= soc <= p.capacity
    ensures (forall h :: 0 <= h < n ==> Quiet(plans[h])) ==> soc == soc0
  {
    if n == 0 then soc0 else HourAt(p, plans[n - 1], n - 1, SocAfter(p, plans, soc0, n - 1)).endSoc
  }

  /** Records of the first `n` hours of a run started at `soc0`. */
  function Records(p: BatteryParams, plans: seq<Plan>, soc0: real, n: nat): (rs: seq<HourRecord>)
    requires n <= |plans| && p.dischargeEff != 0.0
    ensures |rs| == n
  {
    if n == 0 then []
    else Records(p, plans, soc0, n - 1) + [HourAt(p, plans[n - 1], n - 1, SocAfter(p, plans, soc0, n - 1))]
  }

  /** One hour of the run on `battery`: discharge to cover what the grid left
      unmet, then charge from the grid's leftover plus the solar surplus. */
  method RunHour(battery: Battery, plan: Plan, hour: nat) returns (rec: HourRecord)
    requires battery.dischargeEff != 0.0
    modifies battery
    ensures rec == HourAt(battery.Params(), plan, hour, old(battery.soc))
    ensures battery.soc == rec.endSoc
  {
    var startSoc := battery.soc;
    var unmet := plan.grid.unmetGrid;
    var battOut := 0.0;
    if unmet > 0.0 {
      battOut := battery.Discharge(unmet);
      unmet := unmet - battOut;
    }
    var charged := 0.0;
    if plan.surplusGrid > 0.0 {
      charged := battery.Charge(plan.surplusGrid);
    }
    var excess := Max(0.0, plan.surplusGrid - charged);
    rec := MakeRecord(hour, plan, battOut, charged, unmet, excess, startSoc, battery.soc);
  }

  /** Runs the hours of `plans` in order on `battery`, appending one record
      per hour; the state of charge carries from each hour to the next. */
  method RunPlans(battery: Battery, plans: seq<Plan>) returns (hourly: seq<HourRecord>)
    requires battery.dischargeEff != 0.0
    modifies battery
    ensures hourly == Records(battery.Params(), plans, old(battery.soc), |plans|)
    ensures battery.soc == SocAfter(battery.Params(), plans, old(battery.soc), |plans|)
  {
    ghost var soc0 := battery.soc;
    hourly := [];
    for hour := 0 to |plans|
      invariant hourly == Records(battery.Params(), plans, soc0, hour)
      invariant battery.soc == SocAfter(battery.Params(), plans, soc0, hour)
    {
      var rec := RunHour(battery, plans[hour], hour);
      hourly := hourly + [rec];
    }
  }

  /** Runs hours 0 to 47 in order on `battery`: each hour's balance, then its
      battery exchange. */
  method RunSimIntegration(battery: Battery, sc: Scenario) returns (hourly: seq<HourRecord>)
    requires WellFormed(sc) && battery.dischargeEff != 0.0
    modifies battery
    ensures hourly == Records(battery.Params(), Plans(sc), old(battery.soc), Hours)
    ensures battery.soc == SocAfter(battery.Params(), Plans(sc), old(battery.soc), Hours)
    ensures |hourly| == Hours
  {
    hourly := RunPlans(battery, Plans(sc));
  }

  /** The record of hour `i` is that hour's balance from the state of charge
      the earlier hours left. */
  lemma {:induction false} RecordAt(p: BatteryParams, plans: seq<Plan>, soc0: real, n: nat, i: nat)
    requires n <= |plans| && p.dischargeEff != 0.0 && i < n
    ensures Records(p, plans, soc0, n)[i] == HourAt(p, plans[i], i, SocAfter(p, plans, soc0, i))
  {
    if i < n - 1 {
      RecordAt(p, plans, soc0, n - 1, i);
    }
  }

  /** A run has one record per hour, in hour order, hour `i` using the plan of
      hour `i` (so the loads and usage of block i / 4); each hour starts where
      the previous one ended and the last ends at the run's final state. */
  lemma RunShape(p: BatteryParams, plans: seq<Plan>, soc0: real)
    requires |plans| == Hours && p.dischargeEff != 0.0
    ensures var rs := Records(p, plans, soc0, Hours);
      && |rs| == Hours
      && rs[0].startSoc == soc0
      && (forall i :: 0 <= i < Hours ==> rs[i].hour == i && rs[i].solarKw == plans[i].solarKw)
      && (forall i :: 0 < i < Hours ==> rs[i].startSoc == rs[i - 1].endSoc)
      && rs[Hours - 1].endSoc == SocAfter(p, plans, soc0, Hours)
  {
    var rs := Records(p, plans, soc0, Hours);
    forall i | 0 <= i < Hours
      ensures rs[i].hour == i && rs[i].solarKw == plans[i].solarKw
      ensures rs[i].startSoc == SocAfter(p, plans, soc0, i) && rs[i].endSoc == SocAfter(p, plans, soc0, i + 1)
    {
      RecordAt(p, plans, soc0, Hours, i);
    }
    forall i | 0 < i < Hours
      ensures rs[i].startSoc == rs[i - 1].endSoc
    {
      assert rs[i].startSoc == SocAfter(p, plans, soc0, i) == rs[i - 1].endSoc;
    }
  }

  /** Fuel per hour is the sum of the four devices' fuel, and a device switched
      off burns none and, for a generator, puts nothing on the grid. */
  lemma FuelAccounting(p: BatteryParams, sc: Scenario, soc0: real)
    requires WellFormed(sc) && p.dischargeEff != 0.0
    ensures var rs := Records(p, Plans(sc), soc0, Hours);
      && (forall i :: 0 <= i < Hours ==>
            rs[i].fuelUsed == rs[i].motor1.fuelUsed + rs[i].motor2.fuelUsed + rs[i].dg1.fuelUsed + rs[i].dg2.fuelUsed)
      && (forall i :: 0 <= i < Hours && !sc.fleet.motor1.isOn ==> rs[i].motor1.fuelUsed == 0.0)
      && (forall i :: 0 <= i < Hours && !sc.fleet.motor2.isOn ==> rs[i].motor2.fuelUsed == 0.0)
      && (forall i :: 0 <= i < Hours && !sc.fleet.dg1.isOn ==> rs[i].dg1 == DeviceOutput(0.0, 0.0))
      && (forall i :: 0 <= i < Hours && !sc.fleet.dg2.isOn ==> rs[i].dg2 == DeviceOutput(0.0, 0.0))
  {
    var plans := Plans(sc);
    var rs := Records(p, plans, soc0, Hours);
    forall i | 0 <= i < Hours
      ensures rs[i].fuelUsed == rs[i].motor1.fuelUsed + rs[i].motor2.fuelUsed + rs[i].dg1.fuelUsed + rs[i].dg2.fuelUsed
      ensures !sc.fleet.motor1.isOn ==> rs[i].motor1.fuelUsed == 0.0
      ensures !sc.fleet.motor2.isOn ==> rs[i].motor2.fuelUsed == 0.0
      ensures !sc.fleet.dg1.isOn ==> rs[i].dg1 == DeviceOutput(0.0, 0.0)
      ensures !sc.fleet.dg2.isOn ==> rs[i].dg2 == DeviceOutput(0.0, 0.0)
    {
      RecordAt(p, plans, soc0, Hours, i);
      assert HourFacts(sc, i, plans[i]);
    }
  }

  /** Every record of a run started in range starts and ends in range. */
  lemma RecordsInRange(p: BatteryParams, plans: seq<Plan>, soc0: real)
    requires |plans| == Hours
    requires p.dischargeEff > 0.0 && p.chargeEff >= 0.0 && p.minSoc <= soc0 <= p.capacity
    ensures forall i :: 0 <= i < Hours ==>
      var r := Records(p, plans, soc0, Hours)[i];
      p.minSoc <= r.startSoc <= p.capacity && p.minSoc <= r.endSoc <= p.capacity
  {
    forall i | 0 <= i < Hours
      ensures var r := Records(p, plans, soc0, Hours)[i];
        p.minSoc <= r.startSoc <= p.capacity && p.minSoc <= r.endSoc <= p.capacity
    {
      RecordAt(p, plans, soc0, Hours, i);
    }
  }

  /** Total fuel of a sequence of records. */
  function TotalFuel(rs: seq<HourRecord>): (total: real)
    ensures (forall i :: 0 <= i < |rs| ==> rs[i].fuelUsed >= 0.0) ==> total >= 0.0
    ensures (forall i :: 0 <= i < |rs| ==> rs[i].fuelUsed == 0.0) ==> total == 0.0
  {
    if rs == [] then 0.0 else TotalFuel(rs[..|rs| - 1]) + rs[|rs| - 1].fuelUsed
  }

  /** When no device burns a negative amount, every hour's fuel and the
      run's total fuel are non-negative. */
  lemma {:induction false} FuelNonNegative(p: BatteryParams, plans: seq<Plan>, soc0: real, n: nat)
    requires n <= |plans| && p.dischargeEff != 0.0
    requires forall h :: 0 <= h < |plans| ==> FuelsNonNegative(plans[h])
    ensures forall i :: 0 <= i < n ==> Records(p, plans, soc0, n)[i].fuelUsed >= 0.0
    ensures TotalFuel(Records(p, plans, soc0, n)) >= 0.0
  {
    if n > 0 {
      FuelNonNegative(p, plans, soc0, n - 1);
      var rs := Records(p, plans, soc0, n);
      assert rs[..n - 1] == Records(p, plans, soc0, n - 1);
      assert FuelsNonNegative(plans[n - 1]);
    }
  }

  /** A run on physically meaningful inputs burns a non-negative amount of
      fuel every hour and in total. */
  lemma RunFuelNonNegative(p: BatteryParams, sc: Scenario, soc0: real)
    requires WellFormed(sc) && Physical(sc) && p.dischargeEff != 0.0
    ensures var rs := Records(p, Plans(sc), soc0, Hours);
      (forall i :: 0 <= i < Hours ==> rs[i].fuelUsed >= 0.0) && TotalFuel(rs) >= 0.0
  {
    FuelNonNegative(p, Plans(sc), soc0, Hours);
  }

  /** No record of a run leaves a negative unmet load. */
  lemma UnmetLoadNonNegative(p: BatteryParams, sc: Scenario, soc0: real)
    requires WellFormed(sc) && p.dischargeEff != 0.0
    ensures forall i :: 0 <= i < Hours ==> Records(p, Plans(sc), soc0, Hours)[i].unmetLoad >= 0.0
  {
    var plans := Plans(sc);
    forall i | 0 <= i < Hours
      ensures Records(p, plans, soc0, Hours)[i].unmetLoad >= 0.0
    {
      RecordAt(p, plans, soc0, Hours, i);
    }
  }

  /** A run whose every plan burns no fuel, leaves nothing unmet and has no
      surplus: every record burns nothing, has no unmet load and no battery
      exchange, and the state of charge ends where it started. */
  lemma QuietRun(p: BatteryParams, plans: seq<Plan>, soc0: real)
    requires |plans| == Hours && p.dischargeEff != 0.0
    requires forall h :: 0 <= h < Hours ==> Quiet(plans[h]) && plans[h].grid.unmetGrid == 0.0
    requires forall h :: 0 <= h < Hours ==>
      plans[h].m1Fuel == 0.0 && plans[h].m2Fuel == 0.0 && plans[h].dg1Fuel == 0.0 && plans[h].dg2Fuel == 0.0
    ensures var rs := Records(p, plans, soc0, Hours);
      && (forall i :: 0 <= i < Hours ==>
            rs[i].fuelUsed == 0.0 && rs[i].unmetLoad == 0.0 && rs[i].battOut == 0.0 && rs[i].charged == 0.0)
      && TotalFuel(rs) == 0.0
      && SocAfter(p, plans, soc0, Hours) == soc0
  {
    var rs := Records(p, plans, soc0, Hours);
    forall i | 0 <= i < Hours
      ensures rs[i].fuelUsed == 0.0 && rs[i].unmetLoad == 0.0 && rs[i].battOut == 0.0 && rs[i].charged == 0.0
    {
      RecordAt(p, plans, soc0, Hours, i);
    }
  }

  /** With every device off, no load and no sunlight, no hour burns fuel or
      leaves load unmet, the battery does nothing, and its state of charge
      ends where it started. */
  lemma IdleRunChangesNothing(p: BatteryParams, sc: Scenario, soc0: real)
    requires WellFormed(sc) && p.dischargeEff != 0.0
    requires forall h :: 0 <= h < Hours ==> IdleHour(sc, h)
    ensures var rs := Records(p, Plans(sc), soc0, Hours);
      && (forall i :: 0 <= i < Hours ==>
            rs[i].fuelUsed == 0.0 && rs[i].unmetLoad == 0.0 && rs[i].battOut == 0.0 && rs[i].charged == 0.0)
      && TotalFuel(rs) == 0.0
      && SocAfter(p, Plans(sc), soc0, Hours) == soc0
  {
    var plans := Plans(sc);
    forall h | 0 <= h < Hours
      ensures Quiet(plans[h]) && plans[h].grid.unmetGrid == 0.0
      ensures plans[h].m1Fuel == 0.0 && plans[h].m2Fuel == 0.0 && plans[h].dg1Fuel == 0.0 && plans[h].dg2Fuel == 0.0
    {
      assert HourFacts(sc, h, plans[h]) && IdleHour(sc, h);
    }
    QuietRun(p, plans, soc0);
  }
}
